=== FILE: README.md ===
# Dual-session layer of the school-administration front end, in Dafny

This project models the session layer of a browser front end that keeps two
identity domains apart: staff/admin users and parents. It has four parts.

- **Staff session store** (`StaffAuth`). It holds an in-memory `(user, token)` pair,
  mirrored into the storage keys `user` and `admin_token`. Its operations are
  `setAuth`, `clearAuth`, `updateUser`, `login`, `logout` and `getUser`.
- **Parent session store** (`ParentAuth`, with its idle timer in `IdleTimer`).
  It holds `(student, token)`, mirrored into `student` and `token`. Its idle
  timer cancels the previous timer before arming a new one, and expiry logs
  the parent out.
- **Request interceptor** (`Api`). It picks the bearer credential for each
  outgoing request from the request path, using the `Bearer` scheme of
  section 2.1 of RFC 6750.
- **Navigation guard** (`Router`). It takes the role metadata of the route
  table and applies the global first-match `beforeEach` guard and the
  portal's own storage check.

`Sessions` puts both stores over one shared storage. It drives them with
every event the application can produce, and every server reply is a
parameter. It proves what holds in every reachable state: each store's
authentication status survives a reload, each authenticated session has
its subject (staff user or student), and at most one parent idle timer is
pending. It also proves that
events of one domain never touch the other domain's store or storage keys.

Every operation is a pure function. The store and storage go in, and the
next store and storage come out, together with the requests sent, the
navigation target and the error thrown. Network outcomes are `Reply`
parameters, so each property holds for every server behaviour.

In these places the code behaves in ways worth knowing, and the model
follows the code:

- Staff `logout` has `try`/`finally` and no `catch`. A failed `POST /logout` is
  rethrown after the session is cleared and the app has navigated to
  `/login`. It is not swallowed.
- Staff `getUser` writes the refreshed user to memory only. A reload brings
  back the previously stored user.
- The staff store's `startInactivityTimer` and `resetInactivityTimer` are
  shown without bodies (only a comment saying they are unchanged), so the
  model treats them as no-ops and gives the staff store no timer state.
- Line 199 of the guard reads `authStore.user.role` without a null check. A
  session with a truthy token and no user would make the guard throw. The
  model records this as `Decision.Fault`. `Sessions.ReachableNavigationNeverFaults`
  shows that this state cannot be reached from a storage written by the
  stores, as long as every server reply carries a user where one is
  expected (see "## Left out").
- A token is held only with its subject (staff user or student), but not the
  other way round. `updateUser` while logged out stores a user with no token,
  and a login whose token is empty stores a subject under a falsy token
  (`Sessions.SubjectsOutliveSessions`). The invariant proved is therefore
  "authenticated implies subject present", not "token iff subject".

## Model

| member | source | states |
|---|---|---|
| Base.StoreKeysDisjoint | src/stores/auth.js:22-23 | The staff keys (`user`, `admin_token`) and the parent keys (`student`, `token`) are disjoint. |
| Base.TokenItem | src/stores/auth.js:9 | `getItem(key) \|\| null` on a token key is present only when the item is truthy, and then it is exactly the stored text. |
| StaffAuth.IsAuthenticated | src/stores/auth.js:13 | Authenticated iff the token is non-null and non-empty. |
| StaffAuth.Hydrate | src/stores/auth.js:8-9 | A page load restores a stored user exactly, and a stored non-empty token exactly. It authenticates only when `admin_token` holds a truthy item. A missing `user` key gives no user, and a missing `admin_token` key gives a null token. |
| StaffAuth.HydrateReadsOnlyStaffKeys | src/stores/auth.js:8-9 | Two storages that agree on `user` and `admin_token` give the same staff store on load. |
| StaffAuth.SetAuth | src/stores/auth.js:19-26 | Both fields are set. A reload restores the same user and token (an empty token reloads as absent). It is authenticated iff the token is non-empty. Both staff keys are present and no other key changes. |
| StaffAuth.ClearAuth | src/stores/auth.js:28-35 | Both fields are null and both staff keys are gone. A reload gives the same cleared store. Non-staff keys are unchanged. |
| StaffAuth.ClearAuthIdempotent | src/stores/auth.js:28-35 | Clearing twice equals clearing once. |
| StaffAuth.UpdateUser | src/stores/auth.js:15-18 | The user and its key change and reload to the new user. The token and the `admin_token` item are untouched, and so is every key except `user`. |
| StaffAuth.Login | src/stores/auth.js:44-49 | Exactly one `POST /login`. On success the store holds the response's user and token, both staff keys are present, a reload restores that user and that token (an empty token reloads as absent), and reload status matches memory. On failure the error propagates unchanged and the store and staff keys are cleared. Parent keys are never touched. |
| StaffAuth.Logout | src/stores/auth.js:51-60 | The server is called iff the session was authenticated. The session and staff keys are always cleared, and navigation always goes to `/login`. An error is thrown iff a server call was made and failed, and it is that call's error. |
| StaffAuth.GetUser | src/stores/auth.js:62-74 | With no truthy token, nothing happens and no request is sent. Otherwise one `GET /user`. On success only the in-memory user changes (token and storage kept). On failure the session is cleared. It never throws. |
| IdleTimer.Cancel | src/stores/parentAuth.js:49-59 | Cancelling leaves no timer pending and keeps the remembered handle. |
| IdleTimer.Start | src/stores/parentAuth.js:13-19 | After a restart exactly one handle is pending: a fresh one, different from the previous and from anything pending before. |
| IdleTimer.Fire | src/stores/parentAuth.js:15-18 | A fired handle is no longer pending, and the timer is left disarmed. |
| IdleTimer.AtMostOnePending | src/stores/parentAuth.js:13-19 | A well-formed timer never has more than one pending handle. |
| IdleTimer.Restarts | src/stores/parentAuth.js:21-25 | Any number of restarts keeps the timer well formed. |
| IdleTimer.RestartsLeaveOnlyLatest | src/stores/parentAuth.js:13-25 | After n restarts only the latest handle is pending. It is newer than every earlier handle, and n handles were handed out. |
| ParentAuth.Hydrate | src/stores/parentAuth.js:7-8 | A page load restores a stored student exactly, and a stored non-empty token exactly. The token is truthy only when the `token` item is truthy, and either field is absent when its key is missing. |
| ParentAuth.HydrateReadsOnlyParentKeys | src/stores/parentAuth.js:7-8 | Two storages that agree on `student` and `token` give the same parent session on load. |
| ParentAuth.Boot | src/stores/parentAuth.js:7-35 | The store is hydrated from storage and is well formed. The timer is armed iff the session is authenticated, and a timer is pending iff the stored token is truthy. |
| ParentAuth.StartInactivityTimer | src/stores/parentAuth.js:13-19 | The session fields are unchanged. Exactly one fresh handle is pending. |
| ParentAuth.ResetInactivityTimer | src/stores/parentAuth.js:21-25 | With no truthy token, nothing changes. Otherwise the timer is re-armed with a new handle and nothing else changes. Well-formedness is kept. |
| ParentAuth.SetAuth | src/stores/parentAuth.js:37-47 | Both fields are set and one fresh timer is armed: its handle differs from the previous one and was not pending before. A reload restores the same student and token. Both parent keys are present and no other key changes. |
| ParentAuth.ClearAuth | src/stores/parentAuth.js:49-59 | Both fields are null, both parent keys are removed and no timer is pending. A reload gives the same empty session, and other keys are unchanged. |
| ParentAuth.Login | src/stores/parentAuth.js:61-72 | Exactly one `POST /parent/login`. On success the session is set to the response's student and token, both parent keys are present, a reload restores that student and that token (an empty token reloads as absent), exactly one idle timer is pending and it is a new handle (the countdown restarts), reload status matches memory, and navigation goes to `/parent/portal`. On any failure the one error is `Data yang Anda masukkan tidak sesuai.`, with no navigation, student and token both null, no timer pending and the parent keys removed. Staff keys are never touched. |
| ParentAuth.Logout | src/stores/parentAuth.js:74-77 | No request is sent and nothing is thrown. The session and parent keys are cleared, the timer is cancelled, and navigation goes to `/parent/login`. |
| ParentAuth.Expire | src/stores/parentAuth.js:15-18 | A handle that is not pending does nothing. A pending handle logs the parent out: student and token null, no timer left, keys removed, navigation to `/parent/login`. |
| ParentAuth.ExpiresAtMostOnce | src/stores/parentAuth.js:13-19 | The same handle firing a second time, or any handle other than the remembered one firing, changes nothing. |
| Api.BearerRoundTrip | src/services/api.js:25 | The header value `Bearer <t>` parses back to exactly `t`. |
| Api.Intercept | src/services/api.js:16-34 | Only `Authorization` may change, and the URL and body are kept. A `/parent/` URL gets the parent token when it is truthy. Any other URL gets the staff token when it is truthy. Otherwise the config is returned unchanged, with no fallback to the other token. |
| Api.Interceptor | src/services/api.js:15-38 | Setup errors are rejected unchanged. A config comes out as exactly the token selection of `Intercept` applied to it, so its URL and non-`Authorization` headers are kept. |
| Api.CredentialFor | src/services/api.js:23-31 | A namespace's credential is present iff its own session's token is truthy, and it is that token. |
| Api.InterceptIsTaggedDispatch | src/services/api.js:23-31 | The interceptor equals "classify the path, pick that namespace's credential, attach it". |
| Api.BothSessionsNeverMix | src/services/api.js:23-31 | With both sessions authenticated, a `/parent/` request carries exactly the parent token and every other request exactly the staff token. |
| Api.NamespaceBoundaries | src/services/api.js:23 | `/parent/login` is parent-routed. `/parent`, `/parentX` and the relative `parent/x` are staff-routed. |
| Router.RoleIn | src/router/index.js:30-176 | A declared role comes from a route record that matches the destination and carries that role. |
| Router.MatchIgnoresCaseAndTrailingSlash | src/router/index.js:30-32 | The router is created without `strict` or `sensitive`. A static record matches a destination iff the case-folded destination equals the case-folded record path, with or without one trailing slash. |
| Router.StaticPathIsItsOwnKey | src/router/index.js:30-32 | A static path matches its own record. |
| Router.KnownPathsAreStatic | src/router/index.js:119-166 | The login pages, the portal and the four teacher paths are lower-case, have no trailing slash and are at least two characters long. |
| Router.LookupFollowsRoleOf | src/router/index.js:30-176 | In a table where every record declares the role its path calls for, a lookup gives the destination that role when some record matches it, and no role otherwise. Every matching record declares the same role, so which one is picked does not matter. |
| Router.RouteDeclaresRoleOf | src/router/index.js:119-142 | Every route of the table declares `guru` if it is a `/teacher/*` route, and no role otherwise. |
| Router.StaffRoutesAreUngated | src/router/index.js:34-118 | The fourteen staff routes before the teacher block declare no role and are not teacher paths. |
| Router.LateRoutesAreUngated | src/router/index.js:143-175 | The attendance, holidays, login and parent records after the teacher block declare no role and are not teacher paths. |
| Router.RouteTableDeclaresRoleOf | src/router/index.js:33-176 | Every record of the table declares the role its path calls for. |
| Router.TeacherPathsAreRouted | src/router/index.js:119-142 | Each of the four teacher paths is carried by a route of the table. |
| Router.RoleOfMatchesRouteTable | src/router/index.js:119-142 | The role the route table gives a destination, however it is spelled, is `guru` when it matches one of the four `/teacher/*` records and none otherwise. |
| Router.Guard | src/router/index.js:180-206 | An unauthenticated session going to a non-exempt path is sent to `/login`. It is allowed iff (exempt or authenticated) and the role admits and it is not an authenticated visit to `/login`. It throws iff an authenticated session without a user visits `/login`. |
| Router.PortalEntry | src/router/index.js:168-174 | The portal is entered iff the `token` item is truthy, otherwise it redirects to `/parent/login`. |
| Router.Navigate | src/router/index.js:168-206 | The global guard decides first, with the role of the record the destination matches. When it allows and the destination matches the portal record (any case, optional trailing slash), the portal check decides. Otherwise the guard's decision stands. |
| Router.FirstMatch | src/router/index.js:189-205 | The decision is the fallback or comes from an applicable rule. The earliest applicable rule decides. If none applies, the fallback is taken. |
| Router.GuardIsFirstMatch | src/router/index.js:189-205 | The guard's decision is the first applicable rule in the order authentication, role, login page, else Allow. |
| Router.UnauthenticatedGoesToLogin | src/router/index.js:185-191 | An unauthenticated session going to a path that is neither public nor `/parent...` is redirected to `/login`. |
| Router.RoleMismatchGoesBack | src/router/index.js:193-196 | A declared role that the user does not hold (or no user at all) redirects to `from.path`, or to `/` when that is empty. |
| Router.AuthenticatedLoginRedirects | src/router/index.js:198-203 | An authenticated visit to `/login` goes to `/teacher/students` for `guru` and to `/` otherwise. |
| Router.ParentPathsAreUngated | src/router/index.js:119-166 | A path starting with `/parent` declares no role and is not `/login`. |
| Router.ParentAreaIgnoresStaffSession | src/router/index.js:168-191 | Paths starting with `/parent` are decided the same for every staff session. They are allowed, except the ones matching the portal record (such as `/parent/portal/`), which apply its storage check. |
| Router.ScenarioUnauthenticatedStudents | src/router/index.js:185-191 | Without a staff session, `/students` redirects to `/login`. |
| Router.ScenarioTeacherAtLogin | src/router/index.js:198-201 | A `guru` session visiting `/login` lands on `/teacher/students`. |
| Router.ScenarioPortal | src/router/index.js:168-174 | With no `token` item, the portal redirects to `/parent/login`. With a truthy one, it is allowed. |
| Router.ScenarioOtherSpellings | src/router/index.js:30-32 | `/parent/portal/` without a `token` item redirects to `/parent/login`. `/Teacher/Students` sends a non-`guru` staff session back where it came from. |
| Sessions.Boot | src/stores/parentAuth.js:7-35 | At start, both stores are exactly what hydrating the one storage gives. The parent timer is armed iff the parent session is authenticated. |
| Sessions.Step | src/stores/auth.js:15-74 | A staff event leaves the parent store and every non-staff key unchanged. A parent or timer event leaves the staff store and every non-parent key unchanged. |
| Sessions.BootEstablishesInv | src/stores/parentAuth.js:7-35 | Loading from a storage the stores wrote gives a state that satisfies the invariant. |
| Sessions.StepPreservesInv | src/stores/auth.js:19-35 | Every event keeps the invariant. |
| Sessions.StaffStepPreservesInv | src/stores/auth.js:15-74 | Every staff event keeps the invariant. |
| Sessions.ParentStepPreservesInv | src/stores/parentAuth.js:13-77 | Every parent or timer event keeps the invariant. |
| Sessions.RunPreservesInv | src/stores/parentAuth.js:37-59 | Every sequence of events keeps the invariant: reload status matches memory in both stores, an authenticated store's token reloads as exactly itself, each authenticated session has its subject (staff user or student), and the parent timer is single and armed while authenticated. |
| Sessions.SubjectsOutliveSessions | src/stores/auth.js:15-18 | A subject without a session is reachable: `updateUser` while logged out gives a user with no token, and a parent login with an empty token gives a student with a falsy token. Both states satisfy the invariant. |
| Sessions.ReachableNavigationNeverFaults | src/router/index.js:198-199 | In a reachable state the guard never throws. |
| Sessions.PortalCheckMatchesParentSession | src/router/index.js:168-174 | In a reachable state, any `/parent...` spelling of the portal is admitted iff the parent store is authenticated. |
| Sessions.ReachableTimersAreSingle | src/stores/parentAuth.js:13-35 | After any events from boot, at most one parent timer is pending, and exactly one while the parent is authenticated. |
| Sessions.ParentEventsLeaveStaffAlone | src/stores/parentAuth.js:37-59 | Any run of parent and timer events leaves the staff store and the staff keys exactly as they were. |
| Sessions.StaffEventsLeaveParentAlone | src/stores/auth.js:19-35 | Any run of staff events leaves the parent store (timer included) and the parent keys exactly as they were. |
| Sessions.EndpointsStayInTheirNamespace | src/services/api.js:23 | `/login`, `/logout` and `/user` are staff-routed. `/parent/login` is parent-routed. |
| Sessions.StaffLoginCarriesNoStaleCredential | src/stores/auth.js:44-46 | `POST /login` goes out with the headers it was built with. No stale staff token is attached, and never the parent token. |
| Sessions.ParentLoginCarriesNoStaleCredential | src/stores/parentAuth.js:61-64 | `POST /parent/login` goes out with the headers it was built with. No stale parent token is attached, and never the staff token. |
| Sessions.LogoutNavigationIsAdmitted | src/stores/auth.js:56-59 | After either logout, the guard admits the navigation to that domain's login page. |
| Sessions.ParentLoginReachesPortal | src/stores/parentAuth.js:61-67 | A successful parent login navigates to the portal, and the portal admits it iff the returned token is not empty. |

## Left out

- Base.TokenItem: a serialised payload found under a token key is read as absent, not as its JSON text. The stores never write one there.
- StaffAuth.Hydrate: text stored under `user` is read as no user. The source's `JSON.parse` would throw or yield some value, and serialisation is not modelled.
- ParentAuth.Hydrate: text stored under `student` is read as no student, for the same reason.
- Staff inactivity timer: `startInactivityTimer` and `resetInactivityTimer` in the staff store are shown without bodies. They are modelled as no-ops (`StaffResetTimer`), and the `clearTimeout` in `clearAuth` has no timer to act on.
- Storage failures: `localStorage.setItem` is modelled as never failing. A quota error in the middle of `setAuth` would leave a half-written session, and in the parent `login` it would be turned into the fixed error message.
- Time: `setTimeout` durations and the clock are not modelled. The 15-minute constant is recorded in `IdleTimer.TimeoutMillis`, and expiry is the explicit event `ParentTimerDue`.
- Transport: axios, the base URL and HTTP status codes are not modelled. Every remote call is a `Reply` parameter.
- Non-string payloads: a `null` token in a login response (stored as the text `null`) is not modelled. Response tokens are strings.
- Presentation: `alert`, `console` logging, Vue/Pinia reactivity, the view components, layouts and titles.
- Navigation mechanics: `router.push` and `next(path)` are recorded as a target only. The navigation a redirect starts is a separate decision.
- Route matching: records are matched as vue-router's defaults do, ignoring ASCII letter case and one trailing slash. The parameter segment of `/admin/attendance/:classId` is matched as literal text. That record declares no role and has no `beforeEnter`, so no decision depends on it. Percent-encoding of the destination is not modelled.
- Router.Navigate: vue-router runs `beforeEnter` only when the portal record is being entered, and it aborts a navigation to the location already shown before any guard runs. The model runs both checks on every attempt, as if `from` were always another page.
- Sessions.RunPreservesInv: the storage has no writer other than this page's two stores. Another tab of the same origin shares `localStorage`; a logout there removes the keys while this page's in-memory token stays truthy, so the reload agreement, the portal check (`Sessions.PortalCheckMatchesParentSession`) and the other reachable-state results are not promised then.
- Sessions.RunPreservesInv: the invariant holds token and subject together in one direction only (an authenticated session has its subject). The converse is false in the code, as `Sessions.SubjectsOutliveSessions` shows.
- Sessions.ReachableNavigationNeverFaults: every user payload (the login response's `user`, the `GET /user` reply, the argument of `updateUser`) is a non-null `StaffUser`. A login response without `user` would leave a truthy token and no user, and a later visit to `/login` would throw at line 199 of the router. The theorem holds only for well-typed server replies.
- Concurrency: an idle timeout racing an in-flight login is not modelled. Each transition is atomic.
- Build and bootstrap: `vite.config.js` and `src/main.js` are plumbing.

=== FILE: api.dfy ===
/** The request interceptor of the shared HTTP client (`src/services/api.js`):
    per outgoing request, choose which session's token becomes the bearer
    credential (section 2.1 of RFC 6750: `Authorization: Bearer <token>`)
    from the request's path, read from the two stores' current tokens. */
module Api {
  import opened Base

  const AuthorizationHeader: string := "Authorization"
  const BearerPrefix: string := "Bearer "
  const ParentPrefix: string := "/parent/"

  /** The part of an axios request config the interceptor sees: `url` as
      the call site wrote it (relative to the base URL), the headers, and an
      opaque rest. */
  datatype RequestConfig = RequestConfig(url: string, headers: map<string, string>, body: string)

  /** What reaches the interceptor: a config, or an error from an earlier
      step of request setup. */
  datatype Setup = Ready(config: RequestConfig) | SetupFailed(error: Error)

  /** The header value carrying `token` under the bearer scheme. */
  function BearerCredential(token: string): string {
    BearerPrefix + token
  }

  /** Reads the token back out of a bearer header value. */
  function ParseBearer(h: string): (r: Option<string>)
    ensures r.Some? <==> StartsWith(h, BearerPrefix)
  {
    if StartsWith(h, BearerPrefix) then Some(h[|BearerPrefix|..]) else None
  }

  lemma BearerRoundTrip(token: string)
    ensures ParseBearer(BearerCredential(token)) == Some(token)
  {
  }

  /** The interceptor's success handler, branch for branch: a URL starting
      with `/parent/` takes the parent token, any other URL the staff token,
      and a falsy selected token leaves the config as it was. */
  function Intercept(config: RequestConfig, staffToken: Option<string>, parentToken: Option<string>): (r: RequestConfig)
    ensures r.url == config.url && r.body == config.body
    ensures r.headers - {AuthorizationHeader} == config.headers - {AuthorizationHeader}
    ensures StartsWith(config.url, ParentPrefix) && Truthy(parentToken) ==>
      AuthorizationHeader in r.headers && ParseBearer(r.headers[AuthorizationHeader]) == Some(parentToken.value)
    ensures !StartsWith(config.url, ParentPrefix) && Truthy(staffToken) ==>
      AuthorizationHeader in r.headers && ParseBearer(r.headers[AuthorizationHeader]) == Some(staffToken.value)
    ensures StartsWith(config.url, ParentPrefix) && !Truthy(parentToken) ==> r == config
    ensures !StartsWith(config.url, ParentPrefix) && !Truthy(staffToken) ==> r == config
  {
    if StartsWith(config.url, ParentPrefix) then
      if Truthy(parentToken) then
        BearerRoundTrip(parentToken.value);
        config.(headers := config.headers[AuthorizationHeader := BearerCredential(parentToken.value)])
      else config
    else
      if Truthy(staffToken) then
        BearerRoundTrip(staffToken.value);
        config.(headers := config.headers[AuthorizationHeader := BearerCredential(staffToken.value)])
      else config
  }

  /** The whole request interceptor: the success handler on a config, and
      the error handler, which rejects with the same error and no retry. */
  function Interceptor(incoming: Setup, staffToken: Option<string>, parentToken: Option<string>): (r: Setup)
    ensures incoming.SetupFailed? ==> r == incoming
    ensures incoming.Ready? ==> r == Ready(Intercept(incoming.config, staffToken, parentToken))
    ensures incoming.Ready? ==> r.config.url == incoming.config.url
    ensures incoming.Ready? ==> r.config.headers - {AuthorizationHeader} == incoming.config.headers - {AuthorizationHeader}
  {
    match incoming
    case Ready(config) => Ready(Intercept(config, staffToken, parentToken))
    case SetupFailed(_) => incoming
  }

  // ---------------------------------------------------------------------
  // The same policy as an explicit tagged dispatch
  // ---------------------------------------------------------------------

  /** Which session a request belongs to. */
  datatype Namespace = ParentArea | StaffArea

  function NamespaceOf(url: string): Namespace {
    if StartsWith(url, ParentPrefix) then ParentArea else StaffArea
  }

  /** The credential a namespace is entitled to: its own session's token
      when that is truthy, and otherwise none; never the other session's. */
  function CredentialFor(ns: Namespace, staffToken: Option<string>, parentToken: Option<string>): (r: Option<string>)
    ensures r.Some? ==> Truthy(r)
    ensures ns == ParentArea ==> (r.Some? <==> Truthy(parentToken))
    ensures ns == StaffArea ==> (r.Some? <==> Truthy(staffToken))
    ensures ns == ParentArea && r.Some? ==> r == parentToken
    ensures ns == StaffArea && r.Some? ==> r == staffToken
  {
    var own := if ns == ParentArea then parentToken else staffToken;
    if Truthy(own) then own else None
  }

  /** Attach a credential, or leave the config alone when there is none. */
  function Attach(config: RequestConfig, credential: Option<string>): RequestConfig {
    match credential
    case None => config
    case Some(t) => config.(headers := config.headers[AuthorizationHeader := BearerCredential(t)])
  }

  /** The interceptor as written is the tagged dispatch: classify the path,
      pick that namespace's credential, attach it. */
  lemma InterceptIsTaggedDispatch(config: RequestConfig, staffToken: Option<string>, parentToken: Option<string>)
    ensures Intercept(config, staffToken, parentToken)
         == Attach(config, CredentialFor(NamespaceOf(config.url), staffToken, parentToken))
  {
  }

  /** With both sessions authenticated, a `/parent/` request carries exactly
      the parent token and every other request exactly the staff token. */
  lemma BothSessionsNeverMix(config: RequestConfig, staffToken: string, parentToken: string)
    requires staffToken != "" && parentToken != ""
    ensures var r := Intercept(config, Some(staffToken), Some(parentToken));
      && AuthorizationHeader in r.headers
      && ParseBearer(r.headers[AuthorizationHeader])
         == Some(if StartsWith(config.url, ParentPrefix) then parentToken else staffToken)
  {
  }

  /** The prefix includes the trailing slash and the leading one: `/parent`
      itself, `/parentX` and the relative `parent/x` are staff requests. */
  lemma NamespaceBoundaries()
    ensures NamespaceOf("/parent/login") == ParentArea
    ensures NamespaceOf("/parent") == StaffArea
    ensures NamespaceOf("/parentX") == StaffArea
    ensures NamespaceOf("parent/x") == StaffArea
  {
    assert "/parent/login"[..|ParentPrefix|] == ParentPrefix;
    assert "/parentX"[..|ParentPrefix|] != ParentPrefix by {
      assert "/parentX"[7] != ParentPrefix[7];
    }
    assert "parent/x"[..|ParentPrefix|] != ParentPrefix by {
      assert "parent/x"[0] != ParentPrefix[0];
    }
  }
}

=== FILE: base.dfy ===
/** Shared vocabulary of the session layer: optional values, remote-call
    outcomes, JavaScript-style string prefixes and truthiness, and the
    browser's durable key-value storage that both session stores share. */
module Base {

  datatype Option<+T> = None | Some(value: T)

  /** The failure a caller observes: a transport error from the HTTP client,
      passed through untouched, or an error raised with a fixed message. */
  datatype Error = Transport(detail: string) | Message(text: string)

  /** The outcome of one remote call. The network is not modelled: every call
      site receives its outcome as a parameter, so a property proved for all
      replies holds whatever the server does. */
  datatype Reply<+T> = Replied(data: T) | Failed(error: Error)

  datatype Method = Get | Post

  /** A request a store hands to the HTTP client. */
  datatype Request = Request(verb: Method, url: string)

  /** `String.prototype.startsWith`. */
  predicate StartsWith(s: string, prefix: string) {
    |prefix| <= |s| && s[..|prefix|] == prefix
  }

  /** JavaScript truthiness of a value that is a string or null: `null` and
      the empty string are falsy, every other string is truthy. */
  predicate Truthy(v: Option<string>) {
    v.Some? && v.value != ""
  }

  // ---------------------------------------------------------------------
  // Durable storage (localStorage)
  // ---------------------------------------------------------------------

  /** The opaque identity payloads of the two domains. The staff user's
      `role` is the only field the core inspects; everything else about
      either payload is carried along unread. */
  datatype StaffUser = StaffUser(role: Option<string>, profile: string)
  datatype Student = Student(profile: string)

  /** A value held by the storage. Strings are stored as they are; the two
      identity payloads are stored as their JSON serialisation, which is
      never the empty string. */
  datatype Stored = Text(text: string) | UserJson(user: StaffUser) | StudentJson(student: Student)

  type Storage = map<string, Stored>

  const UserKey: string := "user"
  const AdminTokenKey: string := "admin_token"
  const StudentKey: string := "student"
  const ParentTokenKey: string := "token"

  /** The keys owned by each store. They are disjoint. */
  const StaffKeys: set<string> := {UserKey, AdminTokenKey}
  const ParentKeys: set<string> := {StudentKey, ParentTokenKey}

  /** `localStorage.getItem(key)`. */
  function GetItem(st: Storage, key: string): Option<Stored> {
    if key in st then Some(st[key]) else None
  }

  /** Truthiness of `localStorage.getItem(key)`: present and not the empty
      string (a JSON serialisation is never empty). */
  predicate ItemTruthy(st: Storage, key: string) {
    key in st && st[key] != Text("")
  }

  /** `localStorage.getItem(key) || null` for a key that holds a token. A
      serialised payload found under a token key is read as absent. */
  function TokenItem(st: Storage, key: string): (r: Option<string>)
    ensures r.Some? ==> ItemTruthy(st, key)
    ensures ItemTruthy(st, key) && st[key].Text? ==> r.Some?
    ensures r.Some? ==> r.value != "" && GetItem(st, key) == Some(Text(r.value))
  {
    if key in st && st[key].Text? && st[key].text != "" then Some(st[key].text)
    else None
  }

  /** The part of the storage under the given keys: two storages that agree
      here are indistinguishable to a reader of those keys only. */
  function Restrict(st: Storage, keys: set<string>): (r: Storage)
    ensures r.Keys == st.Keys * keys
    ensures forall k :: k in r ==> r[k] == st[k]
  {
    map k | k in st && k in keys :: st[k]
  }

  lemma StoreKeysDisjoint()
    ensures StaffKeys !! ParentKeys
  {
  }
}

=== FILE: idle_timer.dfy ===
/** The parent store's inactivity timer, without wall-clock time. `setTimeout`
    hands out a fresh handle and makes it pending; `clearTimeout` on the
    remembered handle makes it no longer pending; a pending handle may fire
    at any later point, which removes it. `current` is the handle the store
    remembers (`inactivityTimer.value`), `next` the handle the next
    `setTimeout` returns. */
module IdleTimer {
  import opened Base

  /** `TIMEOUT_DURATION`: fifteen minutes, in milliseconds. Only recorded:
      the model has no clock, so expiry is an explicit event. */
  const TimeoutMillis: nat := 15 * 60 * 1000

  datatype Timer = Timer(current: Option<nat>, pending: set<nat>, next: nat)

  /** No timer was ever started (`inactivityTimer = ref(null)`). */
  const Idle: Timer := Timer(None, {}, 0)

  /** Only the remembered handle can be pending, and it was handed out
      before `next`. */
  predicate Valid(t: Timer) {
    if t.current.None? then t.pending == {}
    else t.pending <= {t.current.value} && t.current.value < t.next
  }

  /** The remembered handle is pending: the session will expire unless
      something cancels or re-arms the timer. */
  predicate Armed(t: Timer) {
    t.current.Some? && t.current.value in t.pending
  }

  /** `clearTimeout(inactivityTimer.value)`. The handle stays remembered. */
  function Cancel(t: Timer): (r: Timer)
    ensures Valid(t) ==> Valid(r) && r.pending == {}
    ensures r.current == t.current && r.next == t.next && r.pending <= t.pending
  {
    if t.current.None? then t else t.(pending := t.pending - {t.current.value})
  }

  /** `startInactivityTimer()`: cancel the remembered handle, then arm a
      fresh one. Whatever was pending before, exactly the new handle is
      pending afterwards. */
  function Start(t: Timer): (r: Timer)
    requires Valid(t)
    ensures Valid(r) && Armed(r)
    ensures r.pending == {r.current.value}
    ensures r.current.value !in t.pending && t.current != r.current
  {
    var c := Cancel(t);
    Timer(Some(t.next), c.pending + {t.next}, t.next + 1)
  }

  /** A pending handle fires: the event loop removes it before running its
      callback. */
  function Fire(t: Timer, h: nat): (r: Timer)
    requires h in t.pending
    ensures Valid(t) ==> Valid(r) && !Armed(r)
    ensures r.pending == t.pending - {h} && h !in r.pending
  {
    t.(pending := t.pending - {h})
  }

  /** At most one timer is ever pending, so the session can never be
      expired twice by two timers. */
  lemma AtMostOnePending(t: Timer)
    requires Valid(t)
    ensures |t.pending| <= 1
  {
    if t.current.Some? {
      var c := t.current.value;
      if c in t.pending {
        assert t.pending == {c};
      } else {
        assert t.pending == {};
      }
    }
  }

  /** `n` back-to-back restarts. */
  function Restarts(t: Timer, n: nat): Timer
    requires Valid(t)
    ensures Valid(Restarts(t, n))
    decreases n
  {
    if n == 0 then t else Restarts(Start(t), n - 1)
  }

  /** However often the timer is restarted, only the latest handle is
      pending, and it is fresher than every handle handed out before. */
  lemma {:induction false} RestartsLeaveOnlyLatest(t: Timer, n: nat)
    requires Valid(t) && n > 0
    ensures var r := Restarts(t, n);
      && r.current.Some? && r.pending == {r.current.value}
      && r.current.value >= t.next
      && r.next == t.next + n
    decreases n
  {
    if n > 1 {
      RestartsLeaveOnlyLatest(Start(t), n - 1);
    }
  }
}

=== FILE: parent_auth.dfy ===
/** The parent session store (`src/stores/parentAuth.js`): an in-memory pair
    (student, token) mirrored into the storage keys `student` and `token`,
    plus the inactivity timer of module IdleTimer. Same shape as the staff
    store, but its failed login is turned into one fixed message, its
    successful login navigates to the portal, and its logout is local. */
module ParentAuth {
  import opened Base
  import opened IdleTimer

  datatype Store = Store(student: Option<Student>, token: Option<string>, timer: Timer)

  /** The body of a successful `POST /parent/login` response. */
  datatype LoginData = LoginData(student: Student, token: string)

  /** Everything one operation does: the next store and storage, the
      requests it sent, where it navigated, and what it threw. */
  datatype Effect = Effect(store: Store, storage: Storage, requests: seq<Request>,
                           navigation: Option<string>, failure: Option<Error>)

  const PortalPath: string := "/parent/portal"
  const ParentLoginPath: string := "/parent/login"

  /** The only error `login` ever throws. */
  const LoginFailedMessage: string := "Data yang Anda masukkan tidak sesuai."

  predicate IsAuthenticated(s: Store) {
    Truthy(s.token)
  }

  /** The store's own invariant: the timer is well formed, an authenticated
      session always has its idle timer armed, and a timer is only pending
      while a token is held. */
  predicate Wf(s: Store) {
    && Valid(s.timer)
    && (IsAuthenticated(s) ==> Armed(s.timer))
    && (s.timer.pending != {} ==> s.token.Some?)
  }

  /** What a page load reads from the storage. */
  function Hydrate(st: Storage): (r: (Option<Student>, Option<string>))
    ensures r.0.Some? ==> GetItem(st, StudentKey) == Some(StudentJson(r.0.value))
    ensures forall v :: GetItem(st, StudentKey) == Some(StudentJson(v)) ==> r.0 == Some(v)
    ensures Truthy(r.1) ==> ItemTruthy(st, ParentTokenKey)
    ensures forall t :: GetItem(st, ParentTokenKey) == Some(Text(t)) && t != "" ==> r.1 == Some(t)
    ensures GetItem(st, StudentKey).None? ==> r.0.None?
    ensures GetItem(st, ParentTokenKey).None? ==> r.1.None?
  {
    var student := if StudentKey in st && st[StudentKey].StudentJson? then Some(st[StudentKey].student) else None;
    (student, TokenItem(st, ParentTokenKey))
  }

  /** A page load reads the keys `student` and `token` and nothing else. */
  lemma HydrateReadsOnlyParentKeys(st1: Storage, st2: Storage)
    requires Restrict(st1, ParentKeys) == Restrict(st2, ParentKeys)
    ensures Hydrate(st1) == Hydrate(st2)
  {
    assert StudentKey in st1 <==> StudentKey in Restrict(st1, ParentKeys);
    assert StudentKey in st2 <==> StudentKey in Restrict(st2, ParentKeys);
    assert ParentTokenKey in st1 <==> ParentTokenKey in Restrict(st1, ParentKeys);
    assert ParentTokenKey in st2 <==> ParentTokenKey in Restrict(st2, ParentKeys);
  }

  /** Store creation: hydrate, then arm the timer iff a token was found. */
  function Boot(st: Storage): (s: Store)
    ensures Wf(s)
    ensures (s.student, s.token) == Hydrate(st)
    ensures Armed(s.timer) <==> IsAuthenticated(s)
    ensures s.timer.pending != {} <==> ItemTruthy(st, ParentTokenKey) && st[ParentTokenKey].Text?
  {
    var (student, token) := Hydrate(st);
    Store(student, token, if Truthy(token) then Start(Idle) else Idle)
  }

  /** `startInactivityTimer()`. */
  function StartInactivityTimer(s: Store): (r: Store)
    requires Valid(s.timer)
    ensures r.student == s.student && r.token == s.token
    ensures Armed(r.timer) && r.timer.pending == {r.timer.current.value}
    ensures s.timer.current != r.timer.current
  {
    s.(timer := Start(s.timer))
  }

  /** `resetInactivityTimer()`: re-arm only while a token is held. */
  function ResetInactivityTimer(s: Store): (r: Store)
    requires Wf(s)
    ensures Wf(r)
    ensures r.student == s.student && r.token == s.token
    ensures !Truthy(s.token) ==> r == s
    ensures Truthy(s.token) ==> r.timer.current.Some? && r.timer.pending == {r.timer.current.value} && r.timer.current != s.timer.current
  {
    if Truthy(s.token) then StartInactivityTimer(s) else s
  }

  /** `setAuth(studentData, tokenData)`: both fields, both keys, and a fresh
      idle timer. A reload restores the same student and token. */
  function SetAuth(s: Store, st: Storage, student: Student, token: string): (r: (Store, Storage))
    requires Valid(s.timer)
    ensures Wf(r.0)
    ensures r.0.student == Some(student) && r.0.token == Some(token)
    ensures r.0.timer.current.Some? && r.0.timer.pending == {r.0.timer.current.value}
    ensures r.0.timer.current != s.timer.current && r.0.timer.current.value !in s.timer.pending
    ensures Hydrate(r.1) == (Some(student), if token == "" then None else Some(token))
    ensures ParentKeys <= r.1.Keys
    ensures r.1 - ParentKeys == st - ParentKeys
  {
    var s' := s.(student := Some(student), token := Some(token));
    (StartInactivityTimer(s'), st[StudentKey := StudentJson(student)][ParentTokenKey := Text(token)])
  }

  /** `clearAuth()`: both fields null, both keys removed, timer cancelled. */
  function ClearAuth(s: Store, st: Storage): (r: (Store, Storage))
    requires Valid(s.timer)
    ensures Wf(r.0) && !IsAuthenticated(r.0)
    ensures r.0.student.None? && r.0.token.None? && r.0.timer.pending == {}
    ensures r.1.Keys !! ParentKeys
    ensures Hydrate(r.1) == (r.0.student, r.0.token)
    ensures r.1 - ParentKeys == st - ParentKeys
  {
    (Store(None, None, Cancel(s.timer)), st - ParentKeys)
  }

  /** `login(credentials)`: clear, post to `/parent/login`; on success set
      the session and go to the portal; on any failure throw the one fixed
      message, whatever the transport reported. */
  function Login(s: Store, st: Storage, reply: Reply<LoginData>): (r: Effect)
    requires Valid(s.timer)
    ensures Wf(r.store)
    ensures r.requests == [Request(Post, ParentLoginPath)]
    ensures r.storage - ParentKeys == st - ParentKeys
    ensures reply.Replied? ==>
      && r.failure.None?
      && r.navigation == Some(PortalPath)
      && r.store.student == Some(reply.data.student) && r.store.token == Some(reply.data.token)
      && Hydrate(r.storage) == (Some(reply.data.student), if reply.data.token == "" then None else Some(reply.data.token))
      && ParentKeys <= r.storage.Keys
      && r.store.timer.current.Some? && r.store.timer.pending == {r.store.timer.current.value}
      && r.store.timer.current != s.timer.current && r.store.timer.current.value !in s.timer.pending
      && (IsAuthenticated(r.store) <==> Truthy(Hydrate(r.storage).1))
    ensures reply.Failed? ==>
      && r.failure == Some(Message(LoginFailedMessage))
      && r.navigation.None?
      && r.store.student.None? && r.store.token.None? && r.store.timer.pending == {}
      && r.storage.Keys !! ParentKeys
  {
    var (cleared, st0) := ClearAuth(s, st);
    match reply
    case Replied(data) =>
      var (s', st') := SetAuth(cleared, st0, data.student, data.token);
      Effect(s', st', [Request(Post, ParentLoginPath)], Some(PortalPath), None)
    case Failed(_) =>
      Effect(cleared, st0, [Request(Post, ParentLoginPath)], None, Some(Message(LoginFailedMessage)))
  }

  /** `logout()`: purely local; clear and go to the parent login page. */
  function Logout(s: Store, st: Storage): (r: Effect)
    requires Valid(s.timer)
    ensures Wf(r.store) && !IsAuthenticated(r.store) && r.store.timer.pending == {}
    ensures r.store.student.None? && r.store.token.None?
    ensures r.requests == [] && r.failure.None?
    ensures r.navigation == Some(ParentLoginPath)
    ensures r.storage.Keys !! ParentKeys
    ensures r.storage - ParentKeys == st - ParentKeys
  {
    var (s', st') := ClearAuth(s, st);
    Effect(s', st', [], Some(ParentLoginPath), None)
  }

  /** Timer handle `h` comes due. A handle that is no longer pending (it was
      cancelled, replaced or has already fired) does nothing; a pending one
      is consumed and its callback logs the parent out. */
  function Expire(s: Store, st: Storage, h: nat): (r: Effect)
    requires Wf(s)
    ensures Wf(r.store) && r.requests == [] && r.failure.None?
    ensures h !in s.timer.pending ==> r == Effect(s, st, [], None, None)
    ensures h in s.timer.pending ==>
      && r.store.student.None? && r.store.token.None? && r.store.timer.pending == {}
      && r.storage.Keys !! ParentKeys
      && r.navigation == Some(ParentLoginPath)
    ensures r.storage - ParentKeys == st - ParentKeys
  {
    if h !in s.timer.pending then Effect(s, st, [], None, None)
    else Logout(s.(timer := Fire(s.timer, h)), st)
  }

  /** An expiry takes effect once: the same handle coming due again, or any
      handle other than the latest, changes nothing. */
  lemma {:induction false} ExpiresAtMostOnce(s: Store, st: Storage, h: nat)
    requires Wf(s)
    ensures var e := Expire(s, st, h); Expire(e.store, e.storage, h) == Effect(e.store, e.storage, [], None, None)
    ensures s.timer.current != Some(h) ==> Expire(s, st, h) == Effect(s, st, [], None, None)
  {
  }
}

=== FILE: router.dfy ===
/** Navigation guarding (`src/router/index.js`): the route table's role
    metadata, the global `beforeEach` guard, and the portal's `beforeEnter`
    check. Each is a pure decision on one navigation attempt; following a
    redirect is a new navigation and not part of the decision. */
module Router {
  import opened Base
  import StaffAuth
  import ParentAuth

  /** What a guard hands to `next`. `Fault` is the guard throwing (a
      `TypeError`), which aborts the navigation. */
  datatype Decision = Allow | Redirect(path: string) | Fault

  datatype Route = Route(path: string, role: Option<string>)

  const Home: string := "/"
  const TeacherLanding: string := "/teacher/students"
  const TeacherRole: string := "guru"
  const ParentAreaPrefix: string := "/parent"

  /** The route table's paths and `meta.role`; layouts, titles and views are
      presentation and left out. */
  const Routes: seq<Route> := [
    Route("/", None),
    Route("/staff-management", None),
    Route("/students", None),
    Route("/costs", None),
    Route("/payments", None),
    Route("/savings", None),
    Route("/announcements", None),
    Route("/downloads", None),
    Route("/inventory", None),
    Route("/classes", None),
    Route("/staff", None),
    Route("/reports/handover", None),
    Route("/reports/attendance", None),
    Route("/reports/attendance/monthly", None),
    Route("/teacher/my-account", Some(TeacherRole)),
    Route("/teacher/students", Some(TeacherRole)),
    Route("/teacher/savings", Some(TeacherRole)),
    Route("/teacher/attendance", Some(TeacherRole)),
    Route("/admin/attendance/:classId", None),
    Route("/holidays", None),
    Route(StaffAuth.LoginPath, None),
    Route(ParentAuth.ParentLoginPath, None),
    Route(ParentAuth.PortalPath, None)
  ]

  const TeacherPaths: set<string> :=
    {"/teacher/my-account", "/teacher/students", "/teacher/savings", "/teacher/attendance"}

  // ---------------------------------------------------------------------
  // Route matching
  // ---------------------------------------------------------------------

  /** ASCII lower case of one character. */
  function LowerChar(c: char): char {
    if 'A' <= c <= 'Z' then (c as int + 32) as char else c
  }

  function FoldCase(s: string): string {
    seq(|s|, i requires 0 <= i < |s| => LowerChar(s[i]))
  }

  /** The router is created without `strict` or `sensitive`, so a static
      route record matches a destination regardless of letter case and of
      one trailing slash. The route paths are ASCII, and a case-insensitive
      regular expression without the `u` flag never equates a non-ASCII
      character with an ASCII one, so ASCII folding is the whole of the
      case rule. MatchKey is the destination as a record sees it: folded,
      with a trailing slash dropped (but never from `/` or `//`, which the
      root record does not treat alike). */
  function MatchKey(path: string): string {
    var f := FoldCase(path);
    if |f| > 2 && f[|f| - 1] == '/' then f[..|f| - 1] else f
  }

  /** Whether the route record with path `routePath` matches `path`. */
  predicate Matches(routePath: string, path: string) {
    MatchKey(path) == routePath
  }

  /** A static route path as the table writes the gated ones: no upper-case
      letter, at least two characters, no trailing slash. */
  predicate IsStaticRoutePath(p: string) {
    && |p| >= 2 && p[|p| - 1] != '/'
    && forall i :: 0 <= i < |p| ==> !('A' <= p[i] <= 'Z')
  }

  /** For a static record, Matches is vue-router's non-strict,
      case-insensitive matching: the folded destination is the folded record
      path, with or without one trailing slash. */
  lemma MatchIgnoresCaseAndTrailingSlash(routePath: string, path: string)
    requires IsStaticRoutePath(routePath)
    ensures Matches(routePath, path)
        <==> (FoldCase(path) == FoldCase(routePath) || FoldCase(path) == FoldCase(routePath) + "/")
  {
    assert FoldCase(routePath) == routePath;
    var f := FoldCase(path);
    if f == routePath + "/" {
      assert f[..|f| - 1] == routePath;
    }
  }

  /** A static path is its own match key, so it matches its own record. */
  lemma StaticPathIsItsOwnKey(p: string)
    requires IsStaticRoutePath(p)
    ensures MatchKey(p) == p
  {
    assert FoldCase(p) == p;
  }

  /** The login pages, the portal and the teacher pages are static paths. */
  lemma KnownPathsAreStatic()
    ensures IsStaticRoutePath(StaffAuth.LoginPath)
    ensures IsStaticRoutePath(ParentAuth.ParentLoginPath)
    ensures IsStaticRoutePath(ParentAuth.PortalPath)
    ensures forall p :: p in TeacherPaths ==> IsStaticRoutePath(p)
  {
  }

  /** `meta.role` of the first route record that matches `path` (none if no
      record matches). */
  function RoleIn(routes: seq<Route>, path: string): (r: Option<string>)
    ensures r.Some? ==> exists i :: 0 <= i < |routes| && Matches(routes[i].path, path) && routes[i].role == r
  {
    if |routes| == 0 then None
    else if Matches(routes[0].path, path) then routes[0].role
    else
      var r := RoleIn(routes[1..], path);
      if r.Some? then
        var i :| 0 <= i < |routes[1..]| && Matches(routes[1..][i].path, path) && routes[1..][i].role == r;
        assert routes[i + 1] == routes[1..][i];
        r
      else r
  }

  /** The role the table gives a record path: `guru` for the four teacher
      routes and none elsewhere (see RoleOfMatchesRouteTable). */
  function RoleOfKey(key: string): Option<string> {
    if key in TeacherPaths then Some(TeacherRole) else None
  }

  /** The role a destination declares, through the record it matches. */
  function RoleOf(path: string): Option<string> {
    RoleOfKey(MatchKey(path))
  }

  /** A table in which every record declares RoleOfKey of its own path
      answers every lookup with RoleOf, or with nothing for a destination no
      record matches. Every matching record then declares the same role, so
      which of them is chosen does not matter. */
  lemma {:induction false} LookupFollowsRoleOf(routes: seq<Route>, path: string)
    requires forall i :: 0 <= i < |routes| ==> routes[i].role == RoleOfKey(routes[i].path)
    ensures RoleIn(routes, path)
         == (if exists i :: 0 <= i < |routes| && Matches(routes[i].path, path) then RoleOf(path) else None)
  {
    if |routes| > 0 && !Matches(routes[0].path, path) {
      var rest := routes[1..];
      assert forall i :: 0 <= i < |rest| ==> rest[i] == routes[i + 1];
      LookupFollowsRoleOf(rest, path);
      assert (exists i :: 0 <= i < |rest| && Matches(rest[i].path, path))
         <==> (exists i :: 0 <= i < |routes| && Matches(routes[i].path, path)) by {
        if exists i :: 0 <= i < |routes| && Matches(routes[i].path, path) {
          var i :| 0 <= i < |routes| && Matches(routes[i].path, path);
          assert Matches(rest[i - 1].path, path);
        }
      }
    }
  }

  /** Every record of the table declares RoleOfKey of its own path: `guru`
      on the four teacher routes, nothing elsewhere. */
  lemma RouteDeclaresRoleOf(i: nat)
    requires i < |Routes|
    ensures Routes[i].role == RoleOfKey(Routes[i].path)
  {
    if i < 14 {
      StaffRoutesAreUngated(i);
    } else if 18 <= i {
      LateRoutesAreUngated(i);
    }
  }

  /** The records before the teacher block declare no role and are not
      teacher paths. */
  lemma StaffRoutesAreUngated(i: nat)
    requires i < 14
    ensures Routes[i].role.None? && Routes[i].path !in TeacherPaths
  {
    assert |Routes[i].path| < 2 || Routes[i].path[1] != 't';
  }

  /** The records after the teacher block declare no role and are not
      teacher paths. */
  lemma LateRoutesAreUngated(i: nat)
    requires 18 <= i < |Routes|
    ensures Routes[i].role.None? && Routes[i].path !in TeacherPaths
  {
    assert Routes[i].path[1] != 't';
  }

  lemma RouteTableDeclaresRoleOf()
    ensures forall i :: 0 <= i < |Routes| ==> Routes[i].role == RoleOfKey(Routes[i].path)
  {
    forall i | 0 <= i < |Routes|
      ensures Routes[i].role == RoleOfKey(Routes[i].path)
    {
      RouteDeclaresRoleOf(i);
    }
  }

  /** Each teacher path is the path of some record of the table. */
  lemma TeacherPathsAreRouted(key: string)
    requires key in TeacherPaths
    ensures exists i :: 0 <= i < |Routes| && Routes[i].path == key
  {
    var i := if key == "/teacher/my-account" then 14
      else if key == "/teacher/students" then 15
      else if key == "/teacher/savings" then 16
      else 17;
    assert Routes[i].path == key;
  }

  /** The only role-gated records are the four teacher routes, each gated
      on the role `guru`: the role the route table gives any destination,
      however it is spelled, is RoleOf. */
  lemma RoleOfMatchesRouteTable(path: string)
    ensures RoleIn(Routes, path) == RoleOf(path)
  {
    RouteTableDeclaresRoleOf();
    LookupFollowsRoleOf(Routes, path);
    if MatchKey(path) in TeacherPaths {
      TeacherPathsAreRouted(MatchKey(path));
    }
  }

  /** `to.meta.role && authStore.user?.role !== to.meta.role` negated: the
      destination declares no role, or the staff user holds exactly it. */
  predicate RoleAdmits(toRole: Option<string>, user: Option<StaffUser>) {
    !Truthy(toRole) || (user.Some? && user.value.role == toRole)
  }

  /** Destinations the authentication rule leaves alone: the two public
      login pages and every path starting with `/parent`. */
  predicate AuthExempt(to: string) {
    to == StaffAuth.LoginPath || to == ParentAuth.ParentLoginPath || StartsWith(to, ParentAreaPrefix)
  }

  /** The global `beforeEach` guard, rules in source order. */
  function Guard(to: string, toRole: Option<string>, from: string, staff: StaffAuth.Store): (d: Decision)
    ensures !AuthExempt(to) && !StaffAuth.IsAuthenticated(staff) ==> d == Redirect(StaffAuth.LoginPath)
    ensures d == Allow <==>
      && (AuthExempt(to) || StaffAuth.IsAuthenticated(staff))
      && RoleAdmits(toRole, staff.user)
      && !(to == StaffAuth.LoginPath && StaffAuth.IsAuthenticated(staff))
    ensures d == Fault <==>
      to == StaffAuth.LoginPath && StaffAuth.IsAuthenticated(staff) && staff.user.None? && RoleAdmits(toRole, None)
    ensures d.Redirect? ==> d.path != ""
  {
    var authRequired := !AuthExempt(to);
    if authRequired && !StaffAuth.IsAuthenticated(staff) then Redirect(StaffAuth.LoginPath)
    else if !RoleAdmits(toRole, staff.user) then Redirect(if from == "" then Home else from)
    else if to == StaffAuth.LoginPath && StaffAuth.IsAuthenticated(staff) then
      if staff.user.None? then Fault
      else if staff.user.value.role == Some(TeacherRole) then Redirect(TeacherLanding)
      else Redirect(Home)
    else Allow
  }

  /** The portal's `beforeEnter`: a truthy `token` item admits, anything
      else goes to the parent login page. */
  function PortalEntry(st: Storage): (d: Decision)
    ensures d == Allow <==> ItemTruthy(st, ParentTokenKey)
    ensures d != Allow ==> d == Redirect(ParentAuth.ParentLoginPath)
  {
    if ItemTruthy(st, ParentTokenKey) then Allow else Redirect(ParentAuth.ParentLoginPath)
  }

  /** One navigation attempt: the global guard with the role of the record
      the destination matches, then, if it allows and that record is the
      portal, the portal's own check. */
  function Navigate(to: string, from: string, staff: StaffAuth.Store, st: Storage): (d: Decision)
    ensures Guard(to, RoleOf(to), from, staff) != Allow ==> d == Guard(to, RoleOf(to), from, staff)
    ensures !Matches(ParentAuth.PortalPath, to) ==> d == Guard(to, RoleOf(to), from, staff)
    ensures Guard(to, RoleOf(to), from, staff) == Allow && Matches(ParentAuth.PortalPath, to) ==> d == PortalEntry(st)
  {
    var d := Guard(to, RoleOf(to), from, staff);
    if d == Allow && Matches(ParentAuth.PortalPath, to) then PortalEntry(st) else d
  }

  // ---------------------------------------------------------------------
  // The guard as a first-match rule list
  // ---------------------------------------------------------------------

  /** A rule fires when `applies` holds and then decides the navigation. */
  datatype Rule = Rule(applies: bool, decision: Decision)

  function FirstMatch(rules: seq<Rule>, fallback: Decision): (d: Decision)
    ensures d == fallback || exists i :: 0 <= i < |rules| && rules[i].applies && rules[i].decision == d
    ensures (forall i :: 0 <= i < |rules| ==> !rules[i].applies) ==> d == fallback
    ensures forall j :: (0 <= j < |rules| && rules[j].applies && (forall i :: 0 <= i < j ==> !rules[i].applies))
                        ==> d == rules[j].decision
  {
    if |rules| == 0 then fallback
    else if rules[0].applies then rules[0].decision
    else
      var d := FirstMatch(rules[1..], fallback);
      assert forall i :: 0 <= i < |rules[1..]| ==> rules[1..][i] == rules[i + 1];
      d
  }

  /** The guard's rules in priority order: authentication, role, login-page
      redirect; anything else is allowed. */
  function GuardRules(to: string, toRole: Option<string>, from: string, staff: StaffAuth.Store): seq<Rule> {
    var authed := StaffAuth.IsAuthenticated(staff);
    var landing :=
      if staff.user.None? then Fault
      else if staff.user.value.role == Some(TeacherRole) then Redirect(TeacherLanding)
      else Redirect(Home);
    [ Rule(!AuthExempt(to) && !authed, Redirect(StaffAuth.LoginPath)),
      Rule(!RoleAdmits(toRole, staff.user), Redirect(if from == "" then Home else from)),
      Rule(to == StaffAuth.LoginPath && authed, landing) ]
  }

  /** Rule order: the guard's decision is the first applicable rule's. */
  lemma GuardIsFirstMatch(to: string, toRole: Option<string>, from: string, staff: StaffAuth.Store)
    ensures Guard(to, toRole, from, staff) == FirstMatch(GuardRules(to, toRole, from, staff), Allow)
  {
    var rules := GuardRules(to, toRole, from, staff);
    if !rules[0].applies && !rules[1].applies && !rules[2].applies {
      assert forall i :: 0 <= i < |rules| ==> !rules[i].applies;
    } else if !rules[0].applies && !rules[1].applies {
      assert forall i :: 0 <= i < 2 ==> !rules[i].applies;
    } else if !rules[0].applies {
      assert forall i :: 0 <= i < 1 ==> !rules[i].applies;
    }
  }

  // ---------------------------------------------------------------------
  // Properties of single decisions
  // ---------------------------------------------------------------------

  /** An unauthenticated staff session reaching for a staff page is sent to
      `/login` before any other rule is looked at. */
  lemma UnauthenticatedGoesToLogin(to: string, toRole: Option<string>, from: string, staff: StaffAuth.Store)
    requires !StaffAuth.IsAuthenticated(staff)
    requires to != StaffAuth.LoginPath && to != ParentAuth.ParentLoginPath && !StartsWith(to, ParentAreaPrefix)
    ensures Guard(to, toRole, from, staff) == Redirect(StaffAuth.LoginPath)
  {
  }

  /** A role mismatch (including having no user at all) sends an
      authenticated session, or one on an exempt page, back where it came
      from, or home when that is unknown. */
  lemma RoleMismatchGoesBack(to: string, toRole: Option<string>, from: string, staff: StaffAuth.Store)
    requires AuthExempt(to) || StaffAuth.IsAuthenticated(staff)
    requires Truthy(toRole)
    requires staff.user.None? || staff.user.value.role != toRole
    ensures Guard(to, toRole, from, staff) == Redirect(if from == "" then Home else from)
  {
  }

  /** An authenticated session asking for `/login` lands on the teacher page
      when its role is `guru`, and on the home page otherwise. */
  lemma AuthenticatedLoginRedirects(toRole: Option<string>, from: string, staff: StaffAuth.Store)
    requires StaffAuth.IsAuthenticated(staff) && staff.user.Some?
    requires RoleAdmits(toRole, staff.user)
    ensures Guard(StaffAuth.LoginPath, toRole, from, staff)
         == Redirect(if staff.user.value.role == Some(TeacherRole) then TeacherLanding else Home)
  {
  }

  /** No destination under `/parent` declares a role, and none is `/login`. */
  lemma ParentPathsAreUngated(to: string)
    requires StartsWith(to, ParentAreaPrefix)
    ensures RoleOf(to).None? && to != StaffAuth.LoginPath
  {
    assert to[1] == 'p' by {
      assert to[..|ParentAreaPrefix|] == ParentAreaPrefix;
    }
    assert MatchKey(to)[1] == 'p';
  }

  /** Paths under `/parent` are decided without the staff session: the
      global guard allows them all, and the only further check is the
      portal's, on the storage, for every spelling of the portal. */
  lemma ParentAreaIgnoresStaffSession(to: string, from: string, staff1: StaffAuth.Store, staff2: StaffAuth.Store, st: Storage)
    requires StartsWith(to, ParentAreaPrefix)
    ensures Navigate(to, from, staff1, st) == Navigate(to, from, staff2, st)
    ensures Navigate(to, from, staff1, st) == (if Matches(ParentAuth.PortalPath, to) then PortalEntry(st) else Allow)
  {
    ParentPathsAreUngated(to);
  }

  /** Scenario: no staff session, destination `/students`. */
  lemma ScenarioUnauthenticatedStudents(staff: StaffAuth.Store, st: Storage)
    requires !StaffAuth.IsAuthenticated(staff)
    ensures Navigate("/students", "/", staff, st) == Redirect(StaffAuth.LoginPath)
  {
    assert !StartsWith("/students", ParentAreaPrefix) by {
      assert "/students"[1] != ParentAreaPrefix[1];
    }
  }

  /** Scenario: a `guru` session asking for `/login` lands on its students page. */
  lemma ScenarioTeacherAtLogin(staff: StaffAuth.Store, st: Storage)
    requires StaffAuth.IsAuthenticated(staff) && staff.user.Some? && staff.user.value.role == Some(TeacherRole)
    ensures Navigate(StaffAuth.LoginPath, "/", staff, st) == Redirect(TeacherLanding)
  {
    KnownPathsAreStatic();
    StaticPathIsItsOwnKey(StaffAuth.LoginPath);
  }

  /** Scenarios: the portal without and with a parent token in the storage. */
  lemma ScenarioPortal(staff: StaffAuth.Store, st: Storage)
    ensures ParentTokenKey !in st ==> Navigate(ParentAuth.PortalPath, "", staff, st) == Redirect(ParentAuth.ParentLoginPath)
    ensures ItemTruthy(st, ParentTokenKey) ==> Navigate(ParentAuth.PortalPath, "", staff, st) == Allow
  {
    KnownPathsAreStatic();
    StaticPathIsItsOwnKey(ParentAuth.PortalPath);
  }

  /** Scenarios: other spellings reach the same records. A trailing slash
      still runs the portal's check, and a teacher page written in capitals
      still turns away a session without the `guru` role. */
  lemma ScenarioOtherSpellings(staff: StaffAuth.Store, st: Storage)
    requires StaffAuth.IsAuthenticated(staff) && staff.user.Some? && staff.user.value.role != Some(TeacherRole)
    ensures ParentTokenKey !in st ==> Navigate("/parent/portal/", "", staff, st) == Redirect(ParentAuth.ParentLoginPath)
    ensures Navigate("/Teacher/Students", "/students", staff, st) == Redirect("/students")
  {
    assert FoldCase("/parent/portal/") == "/parent/portal/";
    assert MatchKey("/parent/portal/") == ParentAuth.PortalPath;
    assert StartsWith("/parent/portal/", ParentAreaPrefix);
    assert FoldCase("/Teacher/Students") == "/teacher/students";
    assert RoleOf("/Teacher/Students") == Some(TeacherRole);
  }
}

=== FILE: sessions.dfy ===
/** The two session stores side by side over one browser storage, driven by
    the events the application can produce: the stores' public operations
    with every possible server reply, and the parent idle timer coming due.
    The lemmas here are about whole runs: what every reachable state
    satisfies, and what one domain's events can never do to the other. */
module Sessions {
  import opened Base
  import opened IdleTimer
  import StaffAuth
  import ParentAuth
  import Api
  import Router

  datatype World = World(staff: StaffAuth.Store, parent: ParentAuth.Store, storage: Storage)

  /** Everything that can happen to the session layer. */
  datatype Event =
    | StaffLogin(loginReply: Reply<StaffAuth.LoginData>)
    | StaffLogout(logoutReply: Reply<()>)
    | StaffGetUser(userReply: Reply<StaffUser>)
    | StaffUpdateUser(user: StaffUser)
    | StaffResetTimer
    | ParentLogin(parentReply: Reply<ParentAuth.LoginData>)
    | ParentLogout
    | ParentResetTimer
    | ParentTimerDue(handle: nat)

  predicate IsStaffEvent(e: Event) {
    e.StaffLogin? || e.StaffLogout? || e.StaffGetUser? || e.StaffUpdateUser? || e.StaffResetTimer?
  }

  /** Process start: both stores hydrate from the same storage, and the
      parent store arms its timer if it found a token. */
  function Boot(st: Storage): (w: World)
    ensures w.storage == st
    ensures w.staff == StaffAuth.Hydrate(st) && (w.parent.student, w.parent.token) == ParentAuth.Hydrate(st)
    ensures StaffAuth.IsAuthenticated(w.staff) ==> ItemTruthy(st, AdminTokenKey)
    ensures ParentAuth.IsAuthenticated(w.parent) <==> Armed(w.parent.timer)
    ensures ParentAuth.Wf(w.parent)
  {
    World(StaffAuth.Hydrate(st), ParentAuth.Boot(st), st)
  }

  /** One event, applied atomically. */
  function Step(w: World, e: Event): (r: World)
    requires ParentAuth.Wf(w.parent)
    ensures ParentAuth.Wf(r.parent)
    ensures IsStaffEvent(e) ==> r.parent == w.parent && r.storage - StaffKeys == w.storage - StaffKeys
    ensures !IsStaffEvent(e) ==> r.staff == w.staff && r.storage - ParentKeys == w.storage - ParentKeys
  {
    match e
    case StaffLogin(reply) =>
      var x := StaffAuth.Login(w.storage, reply);
      w.(staff := x.store, storage := x.storage)
    case StaffLogout(reply) =>
      var x := StaffAuth.Logout(w.staff, w.storage, reply);
      w.(staff := x.store, storage := x.storage)
    case StaffGetUser(reply) =>
      var x := StaffAuth.GetUser(w.staff, w.storage, reply);
      w.(staff := x.store, storage := x.storage)
    case StaffUpdateUser(user) =>
      var (s, st) := StaffAuth.UpdateUser(w.staff, w.storage, user);
      assert st - StaffKeys == w.storage - StaffKeys by {
        assert st - {UserKey} == w.storage - {UserKey};
        assert forall k :: k in st - StaffKeys ==> k in st - {UserKey};
      }
      w.(staff := s, storage := st)
    case StaffResetTimer => w
    case ParentLogin(reply) =>
      var x := ParentAuth.Login(w.parent, w.storage, reply);
      w.(parent := x.store, storage := x.storage)
    case ParentLogout =>
      var x := ParentAuth.Logout(w.parent, w.storage);
      w.(parent := x.store, storage := x.storage)
    case ParentResetTimer => w.(parent := ParentAuth.ResetInactivityTimer(w.parent))
    case ParentTimerDue(h) =>
      var x := ParentAuth.Expire(w.parent, w.storage, h);
      w.(parent := x.store, storage := x.storage)
  }

  function Run(w: World, es: seq<Event>): (r: World)
    requires ParentAuth.Wf(w.parent)
    ensures ParentAuth.Wf(r.parent)
    decreases |es|
  {
    if |es| == 0 then w else Run(Step(w, es[0]), es[1..])
  }

  // ---------------------------------------------------------------------
  // The invariant of every reachable state
  // ---------------------------------------------------------------------

  /** The storage as the stores write it: the parent token key holds text,
      and each truthy token is stored together with its domain's subject. */
  predicate StorageWf(st: Storage) {
    && (ParentTokenKey in st ==> st[ParentTokenKey].Text?)
    && (ItemTruthy(st, AdminTokenKey) ==> UserKey in st && st[UserKey].UserJson?)
    && (ItemTruthy(st, ParentTokenKey) ==> StudentKey in st && st[StudentKey].StudentJson?)
  }

  /** In every reachable state: a reload would restore each store's
      authentication status, and an authenticated store's exact token; each authenticated session has its subject (a
      staff user, a student); the parent store's own invariant holds (one
      idle timer, armed exactly while it is authenticated). Only this
      direction holds between token and subject: see SubjectsOutliveSessions. */
  predicate Inv(w: World) {
    && StorageWf(w.storage)
    && (StaffAuth.IsAuthenticated(w.staff) <==> StaffAuth.IsAuthenticated(StaffAuth.Hydrate(w.storage)))
    && (StaffAuth.IsAuthenticated(w.staff) ==> w.staff.user.Some?)
    && (StaffAuth.IsAuthenticated(w.staff) ==> StaffAuth.Hydrate(w.storage).token == w.staff.token)
    && ParentAuth.Wf(w.parent)
    && (ParentAuth.IsAuthenticated(w.parent) ==> ParentAuth.Hydrate(w.storage).1 == w.parent.token)
    && (ParentAuth.IsAuthenticated(w.parent) <==> ItemTruthy(w.storage, ParentTokenKey))
    && (ParentAuth.IsAuthenticated(w.parent) ==> w.parent.student.Some?)
  }

  lemma BootEstablishesInv(st: Storage)
    requires StorageWf(st)
    ensures Inv(Boot(st))
  {
  }

  /** The restriction of two storages to a key set agrees when the storages
      agree outside its complement. */
  lemma SameOutside(st1: Storage, st2: Storage, keys: set<string>, k: string)
    requires st1 - keys == st2 - keys && k !in keys
    ensures k in st1 <==> k in st2
    ensures k in st1 ==> st1[k] == st2[k]
  {
    assert k in st1 <==> k in st1 - keys;
    assert k in st2 <==> k in st2 - keys;
  }

  lemma StepPreservesInv(w: World, e: Event)
    requires Inv(w)
    ensures Inv(Step(w, e))
  {
    if IsStaffEvent(e) {
      StaffStepPreservesInv(w, e);
    } else {
      ParentStepPreservesInv(w, e);
    }
  }

  /** A staff event keeps Inv: the parent half is untouched. */
  lemma StaffStepPreservesInv(w: World, e: Event)
    requires Inv(w) && IsStaffEvent(e)
    ensures Inv(Step(w, e))
  {
    var r := Step(w, e);
    SameOutside(w.storage, r.storage, StaffKeys, ParentTokenKey);
    SameOutside(w.storage, r.storage, StaffKeys, StudentKey);
    if e.StaffUpdateUser? {
      assert AdminTokenKey in r.storage <==> AdminTokenKey in w.storage;
    }
  }

  /** A parent or timer event keeps Inv: the staff half is untouched. */
  lemma ParentStepPreservesInv(w: World, e: Event)
    requires Inv(w) && !IsStaffEvent(e)
    ensures Inv(Step(w, e))
  {
    var r := Step(w, e);
    SameOutside(w.storage, r.storage, ParentKeys, AdminTokenKey);
    SameOutside(w.storage, r.storage, ParentKeys, UserKey);
    assert StaffAuth.Hydrate(r.storage) == StaffAuth.Hydrate(w.storage);
  }

  /** Every state reached from a well-formed storage satisfies Inv. */
  lemma {:induction false} RunPreservesInv(w: World, es: seq<Event>)
    requires Inv(w)
    ensures Inv(Run(w, es))
    decreases |es|
  {
    if |es| > 0 {
      StepPreservesInv(w, es[0]);
      RunPreservesInv(Step(w, es[0]), es[1..]);
    }
  }

  /** A subject without a session is reachable in both domains, so "token
      present iff subject present" fails in the direction from subject to
      token: `updateUser` while logged out stores a staff user, and a login
      whose token is empty stores a student under a falsy token. */
  lemma SubjectsOutliveSessions(u: StaffUser, v: Student)
    ensures var w := Run(Boot(map[]), [StaffUpdateUser(u)]);
      Inv(w) && w.staff.user == Some(u) && !StaffAuth.IsAuthenticated(w.staff)
    ensures var w := Run(Boot(map[]), [ParentLogin(Replied(ParentAuth.LoginData(v, "")))]);
      Inv(w) && w.parent.student == Some(v) && !ParentAuth.IsAuthenticated(w.parent)
  {
    BootEstablishesInv(map[]);
    RunPreservesInv(Boot(map[]), [StaffUpdateUser(u)]);
    RunPreservesInv(Boot(map[]), [ParentLogin(Replied(ParentAuth.LoginData(v, "")))]);
  }

  // ---------------------------------------------------------------------
  // Consequences for reachable states
  // ---------------------------------------------------------------------

  /** The guard's `authStore.user.role` never throws in a reachable state:
      an authenticated staff session always has a user. */
  lemma ReachableNavigationNeverFaults(w: World, to: string, from: string)
    requires Inv(w)
    ensures Router.Navigate(to, from, w.staff, w.storage) != Router.Fault
  {
  }

  /** The portal's storage check admits exactly when the parent store is
      authenticated, even though it reads the storage and not the store. */
  lemma PortalCheckMatchesParentSession(w: World, to: string, from: string)
    requires Inv(w)
    requires Router.Matches(ParentAuth.PortalPath, to) && StartsWith(to, Router.ParentAreaPrefix)
    ensures Router.Navigate(to, from, w.staff, w.storage) == Router.Allow
        <==> ParentAuth.IsAuthenticated(w.parent)
  {
    Router.ParentAreaIgnoresStaffSession(to, from, w.staff, w.staff, w.storage);
  }

  /** However events interleave, at most one parent idle timer is pending,
      and it is pending whenever the parent session is authenticated. */
  lemma ReachableTimersAreSingle(st: Storage, es: seq<Event>)
    requires StorageWf(st)
    ensures var w := Run(Boot(st), es);
      |w.parent.timer.pending| <= 1
      && (ParentAuth.IsAuthenticated(w.parent) ==> |w.parent.timer.pending| == 1)
  {
    BootEstablishesInv(st);
    RunPreservesInv(Boot(st), es);
    var w := Run(Boot(st), es);
    AtMostOnePending(w.parent.timer);
  }

  // ---------------------------------------------------------------------
  // Non-interference of the two domains
  // ---------------------------------------------------------------------

  /** Parent-domain events never touch the staff store or the staff keys:
      in particular, logging a parent in leaves the staff store exactly as
      unauthenticated as it was. */
  lemma {:induction false} ParentEventsLeaveStaffAlone(w: World, es: seq<Event>)
    requires ParentAuth.Wf(w.parent)
    requires forall i :: 0 <= i < |es| ==> !IsStaffEvent(es[i])
    ensures Run(w, es).staff == w.staff
    ensures Restrict(Run(w, es).storage, StaffKeys) == Restrict(w.storage, StaffKeys)
    decreases |es|
  {
    if |es| > 0 {
      var w1 := Step(w, es[0]);
      forall k | k in StaffKeys
        ensures (k in w1.storage <==> k in w.storage) && (k in w.storage ==> w1.storage[k] == w.storage[k])
      {
        SameOutside(w.storage, w1.storage, ParentKeys, k);
      }
      ParentEventsLeaveStaffAlone(w1, es[1..]);
    }
  }

  /** Staff-domain events never touch the parent store or the parent keys. */
  lemma {:induction false} StaffEventsLeaveParentAlone(w: World, es: seq<Event>)
    requires ParentAuth.Wf(w.parent)
    requires forall i :: 0 <= i < |es| ==> IsStaffEvent(es[i])
    ensures Run(w, es).parent == w.parent
    ensures Restrict(Run(w, es).storage, ParentKeys) == Restrict(w.storage, ParentKeys)
    decreases |es|
  {
    if |es| > 0 {
      var w1 := Step(w, es[0]);
      forall k | k in ParentKeys
        ensures (k in w1.storage <==> k in w.storage) && (k in w.storage ==> w1.storage[k] == w.storage[k])
      {
        SameOutside(w.storage, w1.storage, StaffKeys, k);
      }
      StaffEventsLeaveParentAlone(w1, es[1..]);
    }
  }

  // ---------------------------------------------------------------------
  // The stores' requests through the interceptor
  // ---------------------------------------------------------------------

  /** Each store's endpoints fall in its own namespace of the interceptor. */
  lemma EndpointsStayInTheirNamespace()
    ensures Api.NamespaceOf(StaffAuth.LoginPath) == Api.StaffArea
    ensures Api.NamespaceOf("/logout") == Api.StaffArea
    ensures Api.NamespaceOf("/user") == Api.StaffArea
    ensures Api.NamespaceOf(ParentAuth.ParentLoginPath) == Api.ParentArea
  {
  }

  /** The staff login clears its session before posting, so `POST /login`
      goes out with the headers it was built with: no stale staff token, and
      never the parent's. */
  lemma StaffLoginCarriesNoStaleCredential(w: World, config: Api.RequestConfig)
    requires config.url == StaffAuth.LoginPath
    ensures Api.Intercept(config, StaffAuth.ClearAuth(w.storage).0.token, w.parent.token) == config
  {
  }

  /** The parent login clears its session before posting, so
      `POST /parent/login` goes out with the headers it was built with: no
      stale parent token, and never the staff token. */
  lemma ParentLoginCarriesNoStaleCredential(w: World, config: Api.RequestConfig)
    requires Valid(w.parent.timer)
    requires config.url == ParentAuth.ParentLoginPath
    ensures Api.Intercept(config, w.staff.token, ParentAuth.ClearAuth(w.parent, w.storage).0.token) == config
  {
  }

  /** After staff logout the app's navigation to `/login` is admitted, and
      after parent logout so is the one to `/parent/login`. */
  lemma LogoutNavigationIsAdmitted(w: World, from: string, reply: Reply<()>)
    requires ParentAuth.Wf(w.parent)
    ensures var x := StaffAuth.Logout(w.staff, w.storage, reply);
      Router.Navigate(x.navigation.value, from, x.store, x.storage) == Router.Allow
    ensures var y := ParentAuth.Logout(w.parent, w.storage);
      Router.Navigate(y.navigation.value, from, w.staff, y.storage) == Router.Allow
  {
    Router.KnownPathsAreStatic();
    Router.StaticPathIsItsOwnKey(StaffAuth.LoginPath);
    Router.StaticPathIsItsOwnKey(ParentAuth.ParentLoginPath);
    assert StartsWith(ParentAuth.ParentLoginPath, Router.ParentAreaPrefix);
    Router.ParentAreaIgnoresStaffSession(ParentAuth.ParentLoginPath, from, w.staff, w.staff, w.storage);
  }

  /** A successful parent login navigates to the portal, and the portal
      admits it exactly when the server's token is not empty. */
  lemma ParentLoginReachesPortal(w: World, from: string, data: ParentAuth.LoginData)
    requires ParentAuth.Wf(w.parent)
    ensures var x := ParentAuth.Login(w.parent, w.storage, Replied(data));
      && x.navigation == Some(ParentAuth.PortalPath)
      && (Router.Navigate(ParentAuth.PortalPath, from, w.staff, x.storage) == Router.Allow <==> data.token != "")
  {
    Router.KnownPathsAreStatic();
    Router.StaticPathIsItsOwnKey(ParentAuth.PortalPath);
  }
}

=== FILE: staff_auth.dfy ===
/** The staff/admin session store (`src/stores/auth.js`): an in-memory pair
    (user, token) mirrored into the storage keys `user` and `admin_token`.
    Every transition is a pure function from the current store and storage
    to the next ones; remote calls arrive as `Reply` parameters. The staff
    inactivity timer functions are shown without bodies and are modelled as
    no-ops, so this store carries no timer state and its
    `resetInactivityTimer` changes nothing. */
module StaffAuth {
  import opened Base

  datatype Store = Store(user: Option<StaffUser>, token: Option<string>)

  /** The body of a successful `POST /login` response. */
  datatype LoginData = LoginData(user: StaffUser, token: string)

  /** Everything one public operation does: the next store and storage, the
      requests it sent in order, where it navigated, and what it threw. */
  datatype Effect = Effect(store: Store, storage: Storage, requests: seq<Request>,
                           navigation: Option<string>, failure: Option<Error>)

  const LoginPath: string := "/login"
  const Cleared: Store := Store(None, None)

  /** `isAuthenticated`: `!!token`, so a null or empty token is not a
      session. */
  function IsAuthenticated(s: Store): (r: bool)
    ensures r <==> s.token.Some? && s.token.value != ""
  {
    Truthy(s.token)
  }

  /** The store as a page load builds it from the storage. */
  function Hydrate(st: Storage): (s: Store)
    ensures IsAuthenticated(s) ==> ItemTruthy(st, AdminTokenKey)
    ensures s.user.Some? ==> GetItem(st, UserKey) == Some(UserJson(s.user.value))
    ensures forall u :: GetItem(st, UserKey) == Some(UserJson(u)) ==> s.user == Some(u)
    ensures forall t :: GetItem(st, AdminTokenKey) == Some(Text(t)) && t != "" ==> s.token == Some(t)
    ensures GetItem(st, UserKey).None? ==> s.user.None?
    ensures GetItem(st, AdminTokenKey).None? ==> s.token.None?
  {
    var user := if UserKey in st && st[UserKey].UserJson? then Some(st[UserKey].user) else None;
    Store(user, TokenItem(st, AdminTokenKey))
  }

  /** A page load reads the keys `user` and `admin_token` and nothing else. */
  lemma HydrateReadsOnlyStaffKeys(st1: Storage, st2: Storage)
    requires Restrict(st1, StaffKeys) == Restrict(st2, StaffKeys)
    ensures Hydrate(st1) == Hydrate(st2)
  {
    assert UserKey in st1 <==> UserKey in Restrict(st1, StaffKeys);
    assert UserKey in st2 <==> UserKey in Restrict(st2, StaffKeys);
    assert AdminTokenKey in st1 <==> AdminTokenKey in Restrict(st1, StaffKeys);
    assert AdminTokenKey in st2 <==> AdminTokenKey in Restrict(st2, StaffKeys);
  }

  /** `setAuth(userData, tokenData)`: both fields and both keys are written
      together, and a reload restores the same user and the token (an empty
      token reloads as absent, since `getItem(..) || null` drops it). */
  function SetAuth(st: Storage, user: StaffUser, token: string): (r: (Store, Storage))
    ensures r.0.user == Some(user) && r.0.token == Some(token)
    ensures IsAuthenticated(r.0) <==> token != ""
    ensures Hydrate(r.1).user == Some(user)
    ensures Hydrate(r.1).token == (if token == "" then None else Some(token))
    ensures StaffKeys <= r.1.Keys
    ensures r.1 - StaffKeys == st - StaffKeys
  {
    (Store(Some(user), Some(token)), st[UserKey := UserJson(user)][AdminTokenKey := Text(token)])
  }

  /** `clearAuth()`: both fields become null and both keys are removed; a
      reload yields the same cleared store. */
  function ClearAuth(st: Storage): (r: (Store, Storage))
    ensures !IsAuthenticated(r.0) && r.0.user.None?
    ensures r.1.Keys !! StaffKeys
    ensures Hydrate(r.1) == r.0
    ensures r.1 - StaffKeys == st - StaffKeys
  {
    (Cleared, st - StaffKeys)
  }

  /** Clearing an already cleared session changes nothing. */
  lemma ClearAuthIdempotent(st: Storage)
    ensures ClearAuth(ClearAuth(st).1) == ClearAuth(st)
  {
  }

  /** `updateUser(newUserData)`: only the user and its key change. */
  function UpdateUser(s: Store, st: Storage, user: StaffUser): (r: (Store, Storage))
    ensures r.0.user == Some(user) && r.0.token == s.token
    ensures Hydrate(r.1).user == Some(user)
    ensures GetItem(r.1, AdminTokenKey) == GetItem(st, AdminTokenKey)
    ensures r.1 - {UserKey} == st - {UserKey}
  {
    (Store(Some(user), s.token), st[UserKey := UserJson(user)])
  }

  /** `login(credentials)`: clear, post to `/login`, then `setAuth` with the
      response's user and token. A failed post leaves the store cleared and
      the error propagates unchanged. The previous session plays no part. */
  function Login(st: Storage, reply: Reply<LoginData>): (r: Effect)
    ensures r.requests == [Request(Post, LoginPath)]
    ensures r.navigation.None?
    ensures r.storage - StaffKeys == st - StaffKeys
    ensures reply.Replied? ==>
      && r.failure.None?
      && r.store == Store(Some(reply.data.user), Some(reply.data.token))
      && Hydrate(r.storage).user == Some(reply.data.user)
      && Hydrate(r.storage).token == (if reply.data.token == "" then None else Some(reply.data.token))
      && StaffKeys <= r.storage.Keys
      && (IsAuthenticated(r.store) <==> IsAuthenticated(Hydrate(r.storage)))
    ensures reply.Failed? ==>
      && r.failure == Some(reply.error)
      && r.store == Cleared
      && r.storage.Keys !! StaffKeys
  {
    var (_, cleared) := ClearAuth(st);
    match reply
    case Replied(data) =>
      var (s', st') := SetAuth(cleared, data.user, data.token);
      Effect(s', st', [Request(Post, LoginPath)], None, None)
    case Failed(e) =>
      Effect(Cleared, cleared, [Request(Post, LoginPath)], None, Some(e))
  }

  /** `logout()`: the server is told only when the session is authenticated;
      whatever it answers, the session is cleared and the app navigates to
      `/login`. The `finally` has no `catch`, so a failed server call is
      rethrown after the clear. */
  function Logout(s: Store, st: Storage, reply: Reply<()>): (r: Effect)
    ensures r.requests == (if IsAuthenticated(s) then [Request(Post, "/logout")] else [])
    ensures r.store == Cleared && r.storage.Keys !! StaffKeys
    ensures r.storage - StaffKeys == st - StaffKeys
    ensures r.navigation == Some(LoginPath)
    ensures r.failure.Some? <==> IsAuthenticated(s) && reply.Failed?
    ensures r.failure.Some? ==> r.failure.value == reply.error
  {
    var (s', st') := ClearAuth(st);
    var calls := if IsAuthenticated(s) then [Request(Post, "/logout")] else [];
    var thrown := if IsAuthenticated(s) && reply.Failed? then Some(reply.error) else None;
    Effect(s', st', calls, Some(LoginPath), thrown)
  }

  /** `getUser()`: without a token nothing happens. Otherwise `GET /user`;
      on success the in-memory user is replaced (the storage is not written
      and the token is kept), on failure the session is cleared and the
      error is swallowed. */
  function GetUser(s: Store, st: Storage, reply: Reply<StaffUser>): (r: Effect)
    ensures !Truthy(s.token) ==> r == Effect(s, st, [], None, None)
    ensures Truthy(s.token) ==> r.requests == [Request(Get, "/user")]
    ensures r.navigation.None? && r.failure.None?
    ensures r.storage - StaffKeys == st - StaffKeys
    ensures Truthy(s.token) && reply.Replied? ==>
      r.store == Store(Some(reply.data), s.token) && r.storage == st
    ensures Truthy(s.token) && reply.Failed? ==>
      r.store == Cleared && r.storage.Keys !! StaffKeys
  {
    if !Truthy(s.token) then Effect(s, st, [], None, None)
    else
      match reply
      case Replied(user) => Effect(Store(Some(user), s.token), st, [Request(Get, "/user")], None, None)
      case Failed(_) =>
        var (s', st') := ClearAuth(st);
        Effect(s', st', [Request(Get, "/user")], None, None)
  }
}
